=== FILE: README.md ===
# Platform-agnostic action, modelled in Dafny

A platform-agnostic action is one menu or toolbar command that can be backed either
by a widget-toolkit action (`WidgetsAction`) or by a declarative QuickControls2
action (`QuickControls2Action`). This project models the logic in
`platformagnosticaction.cpp` that is independent of the toolkits:

- `PlatformAction` (platform_action.dfy): the shared state of an action as an
  immutable record. It holds the native text, the cache `m_text` used to emulate
  hidden state, the native visible flag, the enabled/checked/checkable flags and the
  user data. Every member function of the base class becomes a pure transition. The
  widget backend's `changed` handler is `OnChanged`. Sequences of calls are replayed by `Run`.
- `QuickIcon` (quick_icon.dfy): the QuickControls2 `setIcon` string handling. It
  adds the `qrc` prefix to sources and picks the property `icon.source` or `icon.name`.
- `Factory` (factory.dfy): both `createAction` overloads. A parent is either null or
  an object described by the set of `qobject_cast`s that succeed on it. The casts are
  tried in the source's order.
- `IntendedVisibility` (intended_visibility.dfy): `setVisible` with the two steps of
  hiding in the intended order. See "## Findings".

Modelling decisions:

- platformagnosticaction.hpp is not part of this model. The cache `m_text` is
  assumed to start as the empty string, the default of a `QString` member.
- The native setters belong to the toolkit and are not part of this model. They are
  assumed to raise `changed` only when the written value differs from the current
  one, as `QAction`'s setters do. Only the widget backend listens to `changed`.
- A fresh native action has empty text, is visible and enabled, and is neither
  checkable nor checked. The user data starts as an invalid variant.
- Read step by step, `setVisible(false)` (lines 113-114) looks as if it caches the
  text and then blanks it. It does not (see "## Findings"). The model follows the
  code as written.

Consequences proved:

- The cache is empty in every reachable state, so `isVisible()` always returns true.
- On every reachable state, `setVisible` is the identity.
- An action created with text `t` reads back `t`.
- In the widget backend, once the native visible flag agrees with "text non-empty",
  it keeps agreeing. This holds from creation on for any non-empty initial text.

## Model

| member | source | states |
|---|---|---|
| PlatformAction.SetText | platformagnosticaction.cpp:129-136 | while visible, the native text becomes `t`, the cache is kept, only the native text and (for a widget action) the native visible flag can move, and setting the current text changes nothing; a QuickControls2 action's visible flag never moves; while hidden, only the cache becomes `t` and every other field, the native visible flag included, is unchanged; data and flags unchanged; a widget action whose text changes ends with its native visible flag in step with its text |
| PlatformAction.WriteText | platformagnosticaction.cpp:132-133 | the native text becomes `t` and nothing else changes except the native visible flag; writing the current text changes nothing at all (no change is reported); a widget action whose text actually changed is left in step; a QuickControls2 action's visible flag never moves |
| PlatformAction.SetVisible | platformagnosticaction.cpp:100-116 | asking for the current visibility changes nothing; on a visible action it changes nothing at all, even when hiding; showing a hidden action makes the cached text the native text and leaves the action visible; data, flags and the in-step property are kept |
| PlatformAction.SetData | platformagnosticaction.cpp:156-165 | `data()` afterwards returns the new payload and every other field is unchanged |
| PlatformAction.SetFlag | platformagnosticaction.cpp:138-154 | setEnabled/setChecked/setCheckable set their own flag, writing a flag's current value changes nothing, leave the other two flags, the texts, the cache and the data unchanged, and move the native visible flag only to bring a widget action in step |
| PlatformAction.OnChanged | platformagnosticaction.cpp:173-178 | after the widget change handler the native visible flag equals "native text non-empty"; only that flag changes; an action already in step is untouched |
| PlatformAction.Apply | platformagnosticaction.cpp:100-165 | every operation preserves visibility (the empty cache), preserves the in-step property of a widget action, and keeps the backend |
| PlatformAction.RunKeepsVisible | platformagnosticaction.cpp:118-136 | from an empty cache, any sequence of operations leaves the cache empty and `isVisible()` true |
| PlatformAction.RunKeepsSynced | platformagnosticaction.cpp:173-178 | a widget action whose native visible flag is in step with its text stays in step after any sequence of operations |
| PlatformAction.SetTextReadBack | platformagnosticaction.cpp:123-136 | on a visible action, `text()` after `setText(t)` returns `t`, the cache is unchanged and the action stays visible |
| PlatformAction.HideShowKeepsText | platformagnosticaction.cpp:100-116 | `setVisible(false)` then `setVisible(true)` on a visible action gives back the same text, and in fact the same state |
| PlatformAction.SetVisibleIsIdentity | platformagnosticaction.cpp:102-115 | on a visible action, `setVisible(v)` is the identity for both values of `v` |
| PlatformAction.SetDataReadBack | platformagnosticaction.cpp:156-165 | `setData(d)` then `data()` returns `d`, nothing else changes, and setting the same payload again is a no-op |
| PlatformAction.OnChangedIdempotent | platformagnosticaction.cpp:173-178 | the change handler run again, as its own visibility write triggers it, changes nothing |
| QuickIcon.NormaliseSource | platformagnosticaction.cpp:295-300 | the result starts with `qrc` and ends with the input; it equals the input exactly when the input already starts with `qrc`; it is never longer than the input plus the prefix |
| QuickIcon.IconWrite | platformagnosticaction.cpp:289-310 | a source is written to `icon.source` and a name to `icon.name`, never both; a name is written unchanged; a written source is the normalised input, so it always starts with `qrc` |
| QuickIcon.NormaliseCases | platformagnosticaction.cpp:297-299 | identity on inputs starting with `qrc`; otherwise exactly `"qrc" + s`, from which dropping the prefix gives `s` back |
| QuickIcon.NormaliseIdempotent | platformagnosticaction.cpp:297-299 | normalising twice equals normalising once |
| QuickIcon.NamesPassThrough | platformagnosticaction.cpp:295-306 | a string without the prefix passes unchanged to `icon.name` when given as a name, but gains the prefix on `icon.source` when given as a source |
| Factory.CreateAction | platformagnosticaction.cpp:70-91 | the owner of the new adapter is the recognised parent (none for a null parent); the backend is Widgets for null, widget menus and widget groups and QuickControls2 otherwise; a QuickControls2 action takes its context from the parent item itself exactly when the parent is a plain item |
| Factory.CreateActionWithText | platformagnosticaction.cpp:93-98 | the created action reads back `t`, is visible, has invalid data and has the backend its parent calls for; a widget action starts with its visible flag in step exactly when `t` is non-empty (with empty text the native write changes nothing, so the native entry stays visible and blank) |
| Factory.DispatchTable | platformagnosticaction.cpp:70-91 | Widgets exactly for null, widget-menu and widget-group parents; QuickControls2 exactly for declarative menus, declarative groups and items |
| Factory.CastOrder | platformagnosticaction.cpp:78-89 | the first successful cast decides: a widget menu wins over everything; a declarative menu over the widget-group, declarative-group and item casts; a widget group over the declarative-group and item casts; a declarative group over the item cast; a parent is unrecognised exactly when no cast succeeds |
| Factory.CreatedActionStaysVisible | platformagnosticaction.cpp:93-136 | an action created with a text reads it back, and reports itself visible after any sequence of operations |
| Factory.CreatedWidgetsActionStaysSynced | platformagnosticaction.cpp:167-178 | a widget action created with a non-empty text keeps its native visible flag in step with its text after any sequence of operations |
| IntendedVisibility.SetVisibleIntended | platformagnosticaction.cpp:100-116 | with the text blanked before it is cached, hiding a visible action with a non-empty text leaves it hidden with a blank native text and the old text cached; showing restores the cached text |
| IntendedVisibility.HideOpenKeepsItShown | platformagnosticaction.cpp:111-115 | as written, hiding an action created with "Open" changes nothing; it is still visible and still shows "Open" |
| IntendedVisibility.IntendedHideShowRoundTrip | platformagnosticaction.cpp:100-116 | with the intended order, hide makes the action hidden with blank text and show restores the text; a widget action's native visible flag is off while hidden and on again once shown |
| IntendedVisibility.TextSetWhileHiddenAppearsOnShow | platformagnosticaction.cpp:129-136 | with the intended order, a text set while hidden stays off screen and becomes the native text on show |

## Findings

| source | as written | input that shows it | evidently intended | confidence | as-written member | corrected member |
|---|---|---|---|---|---|---|
| platformagnosticaction.cpp:111-115 | hiding stores `text()` in `m_text` first and then calls `setText("")`; that call sees a non-empty cache and only clears `m_text`, so the native text is never blanked and `isVisible()` stays true | an action created with text "Open", then `setVisible(false)`: `isVisible()` is true and `text()` is "Open" | blank the native text first and then cache the old text, so the action is hidden until `setVisible(true)` restores it | high; not executed | IntendedVisibility.HideOpenKeepsItShown | IntendedVisibility.IntendedHideShowRoundTrip |

`PlatformAction.SetVisible` models the code as written, and the rest of the model
(`Apply`, `Run`, the factory lemmas) uses it, because it is what the program does.
`IntendedVisibility.SetVisibleIntended` is the corrected definition. The lemmas about
it prove the intended hide/show behaviour.

## Left out

- Widget-backend `setIcon` (platformagnosticaction.cpp:200-217): building a `QIcon` from a path or from the active icon theme depends on runtime resources outside the model.
- `setShortcut` of both backends (platformagnosticaction.cpp:186-190, 262-270): it forwards the key sequence to a native setter or a dynamic property write. The assertion that the write succeeds is not modelled.
- `setActionGroup` of both backends (platformagnosticaction.cpp:192-198, 272-283): the only branch is a null group, and the two backends treat it differently. The QuickControls2 backend writes a null group (lines 279-280). The widget backend's assertion admits a null group (line 194), but it then reads `m_actionGroup` through the null pointer (line 197). Group membership is native toolkit state and is not modelled.
- QuickControls2 construction (platformagnosticaction.cpp:232-260): component loading, engine and context lookup, and object ownership belong to the declarative toolkit. The factory records only which adapter is built, which object supplies its context, and its owner.
- `fromAction`, the `platformAgnosticAction` back-pointer property, signal connections and the `onTriggered`/`onToggled` relays (platformagnosticaction.cpp:46-68, 180-183, 327-337): signal wiring is left out. `fromAction(QAction*)` is left out as well. It matters for the widget sync property, as the next line explains.
- `Notify`: the widget change handler is modelled only for widget actions built by the factory. `fromAction(QAction*)` (lines 47-61) builds a `WidgetsAction`, whose constructor attaches the handler to a new native action of its own (lines 170-178). `setAction` (lines 224-230) then replaces that native action with the caller's, which has no handler. Such an adapter never runs `OnChanged`, so `RunKeepsSynced` and `CreatedWidgetsActionStaysSynced` say nothing about it.
- `OnChanged`: only the native visible flag is modelled as moving. The native widget action also reports itself disabled while hidden. So `enabled` is the value last passed to `setEnabled`, not the native action's effective enabled state.
- `setAction` and `action()` (platformagnosticaction.cpp:219-230, 314-325): the native object is folded into the state record. The type assertions on it are not modelled.
- `text()`'s and the setters' `assert(action())`: the model always has a native object.
- `IconWrite` also writes for a source that the declarative property would reject. The validity and writability assertion on `icon.source`/`icon.name` (platformagnosticaction.cpp:309-311) is not modelled.
- `SetFlag`: treats `checked` as an ordinary property. The toolkit's own rules for checking a non-checkable action are outside the model.
- `CreateAction`: an unrecognised parent (`Q_UNREACHABLE`) is excluded by its precondition instead of being modelled as an error.

=== FILE: factory.dfy ===
/** The factory that picks a backend from the runtime type of the intended
    parent. A parent is either absent or an object; an object is described by
    the set of runtime casts that succeed on it, and the factory tries those
    casts in a fixed order, taking the first that succeeds.
 */
module Factory {
  import opened PlatformAction

  /** The runtime casts the factory tries, in the order it tries them. */
  datatype Cast = ToWidgetsMenu | ToQuickMenu | ToWidgetsGroup | ToQuickGroup | ToQuickItem

  datatype Parent = NullParent | Object(casts: set<Cast>)

  /** What the factory recognises a parent as. */
  datatype ParentKind = Null | WidgetsMenu | QuickMenu | WidgetsGroup | QuickGroup | QuickItem | Other

  /** Where a QuickControls2 action takes its declarative context from: the
      declarative object wrapped by a menu or group, or the parent item itself. */
  datatype ContextSource = WrappedObject | ParentItem

  /** Which adapter is constructed, and with which owner (Null: no owner). */
  datatype Construction =
    | WidgetsConstruction(owner: ParentKind)
    | QuickConstruction(context: ContextSource, owner: ParentKind)

  /** The kind of the first cast that succeeds, in the factory's order. */
  function KindOf(p: Parent): ParentKind
  {
    match p
    case NullParent => Null
    case Object(casts) =>
      if ToWidgetsMenu in casts then WidgetsMenu
      else if ToQuickMenu in casts then QuickMenu
      else if ToWidgetsGroup in casts then WidgetsGroup
      else if ToQuickGroup in casts then QuickGroup
      else if ToQuickItem in casts then QuickItem
      else Other
  }

  /** The backend each recognised kind calls for. */
  function BackendFor(k: ParentKind): Backend
  {
    if k in {Null, WidgetsMenu, WidgetsGroup} then Widgets else QuickControls2
  }

  function BackendOf(c: Construction): Backend
  {
    match c
    case WidgetsConstruction(_) => Widgets
    case QuickConstruction(_, _) => QuickControls2
  }

  /** createAction(parent). A parent that none of the casts recognises is a
      programming error in the source, so it is excluded here. */
  function CreateAction(p: Parent): (c: Construction)
    requires KindOf(p) != Other
    ensures c.owner == KindOf(p)
    ensures BackendOf(c) == BackendFor(KindOf(p))
    ensures c.QuickConstruction? ==> (c.context == ParentItem <==> KindOf(p) == QuickItem)
  {
    match KindOf(p)
    case Null => WidgetsConstruction(Null)
    case WidgetsMenu => WidgetsConstruction(WidgetsMenu)
    case QuickMenu => QuickConstruction(WrappedObject, QuickMenu)
    case WidgetsGroup => WidgetsConstruction(WidgetsGroup)
    case QuickGroup => QuickConstruction(WrappedObject, QuickGroup)
    case QuickItem => QuickConstruction(ParentItem, QuickItem)
    case Other => assert false; WidgetsConstruction(Null)
  }

  /** createAction(text, parent): construct, then set the text. */
  function CreateActionWithText<D>(t: string, p: Parent): (a: Action<D>)
    requires KindOf(p) != Other
    ensures Text(a) == t
    ensures IsVisible(a)
    ensures a.backend == BackendFor(KindOf(p))
    ensures Data(a).Invalid?
    ensures a.backend == Widgets && t != "" ==> Synced(a)
    ensures a.backend == Widgets && t == "" ==> !Synced(a)
  {
    SetText(Fresh(BackendOf(CreateAction(p))), t)
  }

  /** The recognised kinds split exactly into the widget ones and the
      declarative ones. */
  lemma DispatchTable(p: Parent)
    requires KindOf(p) != Other
    ensures BackendOf(CreateAction(p)) == Widgets <==> KindOf(p) in {Null, WidgetsMenu, WidgetsGroup}
    ensures BackendOf(CreateAction(p)) == QuickControls2 <==> KindOf(p) in {QuickMenu, QuickGroup, QuickItem}
  {
  }

  /** The casts are tried in order and the first that succeeds decides: each
      cast wins over every cast tried after it, whatever else the parent is,
      and a parent on which any cast succeeds is recognised. */
  lemma CastOrder(casts: set<Cast>)
    ensures ToWidgetsMenu in casts ==> CreateAction(Object(casts)) == WidgetsConstruction(WidgetsMenu)
    ensures ToWidgetsMenu !in casts && ToQuickMenu in casts ==>
      CreateAction(Object(casts)) == QuickConstruction(WrappedObject, QuickMenu)
    ensures ToWidgetsMenu !in casts && ToQuickMenu !in casts && ToWidgetsGroup in casts ==>
      CreateAction(Object(casts)) == WidgetsConstruction(WidgetsGroup)
    ensures ToWidgetsMenu !in casts && ToQuickMenu !in casts && ToWidgetsGroup !in casts && ToQuickGroup in casts ==>
      CreateAction(Object(casts)) == QuickConstruction(WrappedObject, QuickGroup)
    ensures casts == {ToQuickItem} ==> CreateAction(Object(casts)) == QuickConstruction(ParentItem, QuickItem)
    ensures KindOf(Object(casts)) == Other <==> casts == {}
  {
    if casts != {} {
      var c :| c in casts;
      match c
      case ToWidgetsMenu =>
      case ToQuickMenu =>
      case ToWidgetsGroup =>
      case ToQuickGroup =>
      case ToQuickItem =>
    }
  }

  /** An action created with a text reads that text back, and stays visible
      whatever is done to it afterwards. */
  lemma {:induction false} CreatedActionStaysVisible<D>(t: string, p: Parent, ops: seq<Op<D>>)
    requires KindOf(p) != Other
    ensures Text(CreateActionWithText<D>(t, p)) == t
    ensures IsVisible(Run(CreateActionWithText<D>(t, p), ops))
  {
    RunKeepsVisible(CreateActionWithText<D>(t, p), ops);
  }

  /** A widget action created with a non-empty text has its native visible flag
      in step with its text after any sequence of operations. */
  lemma {:induction false} CreatedWidgetsActionStaysSynced<D>(t: string, p: Parent, ops: seq<Op<D>>)
    requires KindOf(p) in {Null, WidgetsMenu, WidgetsGroup}
    requires t != ""
    ensures Synced(Run(CreateActionWithText<D>(t, p), ops))
  {
    RunKeepsSynced(CreateActionWithText<D>(t, p), ops);
  }
}

=== FILE: intended_visibility.dfy ===
/** setVisible as its shape says it should behave: hiding blanks the native
    text and keeps it in the cache, showing puts it back. The only change from
    PlatformAction.SetVisible is the order of the two steps of hiding: the text
    is blanked first and the cache is filled afterwards, so that the blanking
    call still sees a visible action and reaches the native object.
 */
module IntendedVisibility {
  import opened PlatformAction
  import opened Factory

  function SetVisibleIntended<D>(a: Action<D>, v: bool): (r: Action<D>)
    ensures IsVisible(a) == v ==> r == a
    ensures !v && IsVisible(a) && Text(a) != "" ==> !IsVisible(r) && Text(r) == "" && r.cache == Text(a)
    ensures v && !IsVisible(a) ==> IsVisible(r) && Text(r) == a.cache
    ensures r.data == a.data && r.backend == a.backend
  {
    if IsVisible(a) == v then
      a
    else if v then
      var t := a.cache;
      SetText(a.(cache := ""), t)
    else
      var t := Text(a);
      SetText(a, "").(cache := t)
  }

  /** As written, hiding an action created with the text "Open" changes nothing:
      it still reports itself visible and still shows "Open". */
  lemma HideOpenKeepsItShown()
    ensures var a := CreateActionWithText<int>("Open", NullParent);
      SetVisible(a, false) == a && IsVisible(SetVisible(a, false)) && Text(SetVisible(a, false)) == "Open"
  {
  }

  /** With the intended order, hiding a visible action with a non-empty text
      makes it report itself hidden with a blank text; showing it again restores
      the original state, and in the widget backend the native visible flag
      follows: off while hidden, back on once shown. */
  lemma IntendedHideShowRoundTrip<D>(a: Action<D>)
    requires IsVisible(a) && Text(a) != ""
    ensures !IsVisible(SetVisibleIntended(a, false))
    ensures Text(SetVisibleIntended(a, false)) == ""
    ensures SetVisibleIntended(SetVisibleIntended(a, false), true).nativeText == a.nativeText
    ensures IsVisible(SetVisibleIntended(SetVisibleIntended(a, false), true))
    ensures a.backend == Widgets ==> !SetVisibleIntended(a, false).nativeVisible
    ensures a.backend == Widgets ==> SetVisibleIntended(SetVisibleIntended(a, false), true).nativeVisible
  {
  }

  /** With the intended order, a text set while hidden is kept in the cache and
      becomes the native text once the action is shown again. */
  lemma TextSetWhileHiddenAppearsOnShow<D>(a: Action<D>, t: string)
    requires IsVisible(a) && Text(a) != "" && t != ""
    ensures var h := SetText(SetVisibleIntended(a, false), t);
      !IsVisible(h) && Text(h) == "" && Text(SetVisibleIntended(h, true)) == t
  {
  }
}

=== FILE: platform_action.dfy ===
/** The state behind one platform-agnostic action and the operations every
    backend shares: text, emulated visibility, user data and the three boolean
    properties. Each operation is a pure transition from one state to the next.

    Hiding is emulated with a text cache: an action counts as visible exactly
    when the cache is empty. The widget backend additionally keeps the native
    action's own visible flag in step with whether its text is empty, through a
    handler that runs whenever the native action reports a change.
 */
module PlatformAction {

  /** Which toolkit owns the native action object. */
  datatype Backend = Widgets | QuickControls2

  /** The opaque user payload; a default-constructed payload is Invalid. */
  datatype Variant<D> = Invalid | Value(payload: D)

  /** The three boolean properties written to the native object. Each field holds
      the value last written through the interface; the native object's own
      effective state (a hidden widget action also reports itself disabled) is
      not tracked. */
  datatype Flag = Enabled | Checked | Checkable

  datatype Action<D> = Action(
    backend: Backend,
    nativeText: string,   // the native object's "text" property
    cache: string,        // the text stashed while the action is hidden
    nativeVisible: bool,  // the native object's own visible flag
    enabled: bool,
    checked: bool,
    checkable: bool,
    data: Variant<D>)

  /** A freshly constructed action: empty text, empty cache, and the native
      defaults (visible, enabled, neither checkable nor checked). */
  function Fresh<D>(backend: Backend): Action<D>
  {
    Action(backend, "", "", true, true, false, false, Invalid)
  }

  predicate IsVisible<D>(a: Action<D>)
  {
    |a.cache| == 0
  }

  function Text<D>(a: Action<D>): string
  {
    a.nativeText
  }

  function Data<D>(a: Action<D>): Variant<D>
  {
    a.data
  }

  function FlagValue<D>(a: Action<D>, f: Flag): bool
  {
    match f
    case Enabled => a.enabled
    case Checked => a.checked
    case Checkable => a.checkable
  }

  /** The native visible flag agrees with "the native text is non-empty". */
  predicate Synced<D>(a: Action<D>)
  {
    a.nativeVisible <==> a.nativeText != ""
  }

  /** The widget backend's change handler: hide the native action when its text
      is empty, show it otherwise. Only the native visible flag moves. */
  function OnChanged<D>(a: Action<D>): (r: Action<D>)
    ensures Synced(r)
    ensures r.(nativeVisible := a.nativeVisible) == a
    ensures Synced(a) ==> r == a
  {
    if a.nativeText == "" then a.(nativeVisible := false) else a.(nativeVisible := true)
  }

  /** The native object reported a change; only the widget backend listens. */
  function Notify<D>(a: Action<D>): Action<D>
  {
    if a.backend == Widgets then OnChanged(a) else a
  }

  /** Write the native "text" property. The native object reports a change only
      when the value actually differs. */
  function WriteText<D>(a: Action<D>, t: string): (r: Action<D>)
    ensures Text(r) == t
    ensures a.nativeText == t ==> r == a
    ensures r.(nativeVisible := a.nativeVisible, nativeText := a.nativeText) == a
    ensures a.backend == Widgets && a.nativeText != t ==> Synced(r)
    ensures Synced(a) ==> Synced(r) || a.backend == QuickControls2
    ensures a.backend == QuickControls2 ==> r.nativeVisible == a.nativeVisible
  {
    if a.nativeText == t then a else Notify(a.(nativeText := t))
  }

  /** setText: while visible the text goes to the native object; while hidden it
      only replaces the cached text. */
  function SetText<D>(a: Action<D>, t: string): (r: Action<D>)
    ensures IsVisible(a) ==> Text(r) == t && r.cache == a.cache
    ensures IsVisible(a) && Text(a) == t ==> r == a
    ensures IsVisible(a) ==> r.(nativeText := a.nativeText, nativeVisible := a.nativeVisible) == a
    ensures a.backend == QuickControls2 ==> r.nativeVisible == a.nativeVisible
    ensures !IsVisible(a) ==> Text(r) == Text(a) && r.cache == t
    ensures !IsVisible(a) ==> r.(cache := a.cache) == a
    ensures r.data == a.data && r.backend == a.backend
    ensures forall f :: FlagValue(r, f) == FlagValue(a, f)
    ensures IsVisible(a) && a.backend == Widgets && Text(a) != t ==> Synced(r)
    ensures Synced(a) && a.backend == Widgets ==> Synced(r)
  {
    if IsVisible(a) then WriteText(a, t) else a.(cache := t)
  }

  /** setVisible, as written: asking for the current visibility is a no-op;
      showing moves the cached text back through setText; hiding first stores
      the current text in the cache and then calls setText with the empty string.
      When the text is non-empty, the cache is then non-empty, so that setText
      call only overwrites the cache; when the text is empty, it rewrites the
      same empty text. Either way hiding never blanks the native text. */
  function SetVisible<D>(a: Action<D>, v: bool): (r: Action<D>)
    ensures IsVisible(a) == v ==> r == a
    ensures IsVisible(a) ==> r == a
    ensures !IsVisible(a) && v ==> Text(r) == a.cache && IsVisible(r)
    ensures r.data == a.data && r.backend == a.backend
    ensures forall f :: FlagValue(r, f) == FlagValue(a, f)
    ensures Synced(a) && a.backend == Widgets ==> Synced(r)
  {
    if IsVisible(a) == v then
      a
    else if v then
      var t := a.cache;
      SetText(a.(cache := ""), t)
    else
      SetText(a.(cache := Text(a)), "")
  }

  /** setData: the payload is replaced when it differs; nothing else moves. */
  function SetData<D(==)>(a: Action<D>, d: Variant<D>): (r: Action<D>)
    ensures Data(r) == d
    ensures r.(data := a.data) == a
  {
    if a.data != d then a.(data := d) else a
  }

  /** setEnabled, setChecked and setCheckable: one native property write. */
  function SetFlag<D>(a: Action<D>, f: Flag, v: bool): (r: Action<D>)
    ensures FlagValue(r, f) == v
    ensures FlagValue(a, f) == v ==> r == a
    ensures forall g :: g != f ==> FlagValue(r, g) == FlagValue(a, g)
    ensures r.nativeText == a.nativeText && r.cache == a.cache
    ensures r.data == a.data && r.backend == a.backend
    ensures Synced(a) || a.backend == QuickControls2 ==> r.nativeVisible == a.nativeVisible
    ensures a.backend == Widgets && FlagValue(a, f) != v ==> Synced(r)
  {
    if FlagValue(a, f) == v then
      a
    else
      var b := match f
        case Enabled => a.(enabled := v)
        case Checked => a.(checked := v)
        case Checkable => a.(checkable := v);
      Notify(b)
  }

  /** One call into the shared interface. */
  datatype Op<D> =
    | SetTextOp(text: string)
    | SetVisibleOp(visible: bool)
    | SetDataOp(value: Variant<D>)
    | SetFlagOp(flag: Flag, on: bool)

  function Apply<D(==)>(a: Action<D>, op: Op<D>): (r: Action<D>)
    ensures IsVisible(a) ==> IsVisible(r)
    ensures Synced(a) && a.backend == Widgets ==> Synced(r)
    ensures r.backend == a.backend
  {
    match op
    case SetTextOp(t) => SetText(a, t)
    case SetVisibleOp(v) => SetVisible(a, v)
    case SetDataOp(d) => SetData(a, d)
    case SetFlagOp(f, v) => SetFlag(a, f, v)
  }

  function Run<D(==)>(a: Action<D>, ops: seq<Op<D>>): Action<D>
    decreases |ops|
  {
    if |ops| == 0 then a else Run(Apply(a, ops[0]), ops[1..])
  }

  /** The cache starts empty and every operation keeps it empty, so an action
      that starts visible reports itself visible forever. */
  lemma {:induction false} RunKeepsVisible<D>(a: Action<D>, ops: seq<Op<D>>)
    requires IsVisible(a)
    ensures IsVisible(Run(a, ops))
    ensures Run(a, ops).cache == ""
    decreases |ops|
  {
    if |ops| > 0 {
      RunKeepsVisible(Apply(a, ops[0]), ops[1..]);
    }
  }

  /** In the widget backend, once the native visible flag agrees with the
      native text it keeps agreeing after any sequence of operations. */
  lemma {:induction false} RunKeepsSynced<D>(a: Action<D>, ops: seq<Op<D>>)
    requires a.backend == Widgets && Synced(a)
    ensures Synced(Run(a, ops))
    decreases |ops|
  {
    if |ops| > 0 {
      RunKeepsSynced(Apply(a, ops[0]), ops[1..]);
    }
  }

  /** While visible, setText is read back by text() and leaves the cache alone. */
  lemma SetTextReadBack<D>(a: Action<D>, t: string)
    requires IsVisible(a)
    ensures Text(SetText(a, t)) == t
    ensures SetText(a, t).cache == a.cache
    ensures IsVisible(SetText(a, t))
  {
  }

  /** Hiding and then showing a visible action leaves its text exactly as it was
      (in fact, leaves the whole state as it was). */
  lemma HideShowKeepsText<D>(a: Action<D>)
    requires IsVisible(a)
    ensures Text(SetVisible(SetVisible(a, false), true)) == Text(a)
    ensures SetVisible(SetVisible(a, false), true) == a
  {
  }

  /** Every setVisible call on a visible action is the identity: the action
      cannot be hidden. This restates, for the reader, a clause of the contract
      of SetVisible as a standalone fact. */
  lemma SetVisibleIsIdentity<D>(a: Action<D>, v: bool)
    requires IsVisible(a)
    ensures SetVisible(a, v) == a
    ensures IsVisible(SetVisible(a, v))
  {
  }

  /** setData then data() returns the payload, and nothing else changes (both
      restated from the contract of SetData for the reader); setting the same
      payload again is a no-op. */
  lemma SetDataReadBack<D>(a: Action<D>, d: Variant<D>)
    ensures Data(SetData(a, d)) == d
    ensures SetData(a, d).(data := a.data) == a
    ensures SetData(SetData(a, d), d) == SetData(a, d)
  {
  }

  /** The widget change handler is idempotent: the notification raised by its
      own visibility write changes nothing further. */
  lemma OnChangedIdempotent<D>(a: Action<D>)
    ensures OnChanged(OnChanged(a)) == OnChanged(a)
  {
  }
}

=== FILE: quick_icon.dfy ===
/** Icon handling of the QuickControls2 backend. An icon is given either as a
    source locator or as a theme name; a source is normalised to carry the
    resource-scheme prefix "qrc", and the value is written to the sub-property
    "icon.source" or "icon.name" of the native action accordingly.
 */
module QuickIcon {

  const Qrc: string := "qrc"
  const SourceProperty: string := "icon.source"
  const NameProperty: string := "icon.name"

  /** One dynamic property write on the native action. */
  datatype PropertyWrite = PropertyWrite(property: string, value: string)

  /** Prepend "qrc" unless the string already starts with it (case-sensitive). */
  function NormaliseSource(s: string): (r: string)
    ensures Qrc <= r
    ensures r == s <==> Qrc <= s
    ensures |r| == |s| || |r| == |s| + |Qrc|
    ensures r[|r| - |s|..] == s
  {
    if Qrc <= s then s else Qrc + s
  }

  /** The write setIcon performs for a source (isSource) or a theme name. */
  function IconWrite(s: string, isSource: bool): (w: PropertyWrite)
    ensures w.property == SourceProperty <==> isSource
    ensures w.property == NameProperty <==> !isSource
    ensures !isSource ==> w.value == s
    ensures isSource ==> Qrc <= w.value
    ensures isSource ==> w.value == NormaliseSource(s)
  {
    if isSource then PropertyWrite(SourceProperty, NormaliseSource(s))
    else PropertyWrite(NameProperty, s)
  }

  /** Normalisation is the identity on strings that already carry the prefix,
      and otherwise exactly prepends it, so stripping the prefix it added gives
      the input back. */
  lemma NormaliseCases(s: string)
    ensures Qrc <= s ==> NormaliseSource(s) == s
    ensures !(Qrc <= s) ==> NormaliseSource(s) == Qrc + s && NormaliseSource(s)[|Qrc|..] == s
  {
  }

  /** Normalising twice is the same as normalising once. */
  lemma NormaliseIdempotent(s: string)
    ensures NormaliseSource(NormaliseSource(s)) == NormaliseSource(s)
  {
  }

  /** A theme name reaches "icon.name" untouched, even one that does not start
      with the prefix, while the same string given as a source would gain it. */
  lemma NamesPassThrough(s: string)
    requires !(Qrc <= s)
    ensures IconWrite(s, false) == PropertyWrite(NameProperty, s)
    ensures IconWrite(s, true) == PropertyWrite(SourceProperty, Qrc + s)
  {
  }
}
